=== FILE: README.md ===
# Ockam vault: Infineon OPTIGA Trust X backend, modelled in Dafny

The Ockam vault gives secure-channel code one cryptographic API. Each
capability (init, random, key generation and ECDH, SHA-256, HKDF, AES-GCM) is
bound at build time to one backend: a secure element or a host library. This
project models two things:

- the OPTIGA Trust X backend's validation and result-normalisation layer;
- the configuration model that backend is compiled against.

Modules:

- `Common`: bytes, the C integer widths, `Option`, and caller pointers.
- `Errors`: the `OCKAM_ERR` codes the backend produces, the OPTIGA library
  status, and the first-error-wins rule.
- `BackendIds`: the backend identity words of `define.h`. Each word packs an
  execution class, a vendor and a part into bit fields. Encoding and
  decoding are proved inverse.
- `VaultConfig`: the capability-to-backend binding table, with the ATECC608A
  test table as an instance. It also holds the Optiga backend's section
  guards, exactly as written (init is a mask test, the others are equality
  tests), and its build rejections, modelled as a validation function.
- `KeyStore`: the 128-byte public-key array and its two 64-byte slots.
- `PeerKey`: the packed peer-public-key record (`03 42 00 04` followed by the
  point), with its serialiser and parser.
- `OptigaTrustX`: `init`, `free`, `random`, `key_gen`, `key_get_pub`, `ecdh`
  and `sha256` as pure functions over the backend's globals.
- `KeyGenFinding`: the key-generation discrepancy (see Findings), the
  corrected definition, and a two-vault key exchange that uses it.

Calls into the OPTIGA library and the memory helpers are opaque. Their
status, and any bytes they produce, are parameters. Each operation returns
the trace of calls it made. That makes "no backend call", "freed exactly
once, as the last call" and "the length passed equals the record size"
statements about the trace.

A few behaviours of the code are easy to miss. The model follows the code:

- Reading the public key after generating the ephemeral key does not return
  the generated key, although the comment on that read says it does (see
  Findings).
- An unknown role in ECDH returns an invalid-parameter error, not a
  key-operation failure. The peer record has already been overwritten by
  then.
- Build rejection applies only when HKDF or AES-GCM is bound to the Optiga's
  own identity. It does not apply to every secure element: the ATECC608A
  table binds both to a TPM-class part and still builds
  (`VaultConfig.OptigaRuleNarrowerThanClassRule`).
- `random` and `sha256` never check their pointers. `ecdh` discards the
  status of its memory copy.

## Model

| member | source | states |
|---|---|---|
| `Common.CastU16` | implementations/c/source/ockam/vault/tpm/infineon/optiga_trust_x.c:216-218 | The 16-bit narrowing keeps every value below 65536 unchanged. |
| `Errors.FirstError` | implementations/c/source/ockam/vault/tpm/infineon/optiga_trust_x.c:463-466 | The winning error is `NoError` exactly when every step succeeded. Otherwise it is the error of some step that every earlier step succeeded before, so the first failure wins. |
| `BackendIds.Encode` | implementations/c/include/ockam/vault/define.h:18-38 | An identity word carries the class bits in the class nibble, the vendor bits in the vendor nibble and the part in the low byte, with nothing above them. |
| `BackendIds.ClassOf` | implementations/c/include/ockam/vault/define.h:18-47 | A word classed TPM has the TPM bit set and the HOST bit clear, and a word classed HOST the reverse. Every encoded identity, such as ATECC608A or MBEDCRYPTO, is given its own class. A word whose class nibble holds both bits, such as 0x3000, or neither, such as 0x0000, gets no class. |
| `BackendIds.Decode` | implementations/c/include/ockam/vault/define.h:18-47 | Whatever decoding recovers encodes back to the same word. |
| `BackendIds.DecodeEncode` | implementations/c/include/ockam/vault/define.h:18-38 | Every class, vendor and part is recovered from its word by masking. |
| `BackendIds.EncodeInjective` | implementations/c/include/ockam/vault/define.h:37-47 | Distinct identities have distinct words. |
| `BackendIds.ConcreteIdentities` | implementations/c/include/ockam/vault/define.h:37-47 | ATECC508A is 0x1101, ATECC608A is 0x1102 and MBEDCRYPTO is 0x2001. Each decodes to its class, vendor and part. |
| `BackendIds.ClassBitsSeparateParts` | implementations/c/include/ockam/vault/define.h:18-47 | TPM and HOST are distinct single bits. Both Microchip parts have TPM set and HOST clear; MBEDCRYPTO is the reverse. |
| `BackendIds.FieldsAreDisjoint` | implementations/c/include/ockam/vault/define.h:18-38 | The vendor bit overlaps neither class bit nor the part numbers 1 and 2. The three identities are pairwise distinct. |
| `VaultConfig.Lookup` | implementations/c/source/ockam/vault/tpm/infineon/optiga_trust_x.c:194-194 | A capability macro inside `#if` has its bound identity, or 0 when the table does not define it. |
| `VaultConfig.Atecc608aTableBindings` | implementations/c/test/ockam/vault/atecc608a/config/vault_config.h:28-38 | All six capabilities are bound, each to ATECC608A. That identity is TPM class with the HOST bit clear, so nothing (HKDF and AES-GCM included) goes to the host library. |
| `VaultConfig.BuildOptiga` | implementations/c/source/ockam/vault/tpm/infineon/optiga_trust_x.c:483-498 | A missing config file is rejected with that cause alone, and a present one is never reported missing. HKDF or AES-GCM bound to the Optiga is rejected, with each cause reported. Otherwise init compiles on the mask test and random, key/ECDH and SHA-256 compile on equality. |
| `VaultConfig.BuildRejectsDerivationOnOptiga` | implementations/c/source/ockam/vault/tpm/infineon/optiga_trust_x.c:483-498 | The build is rejected exactly when the file is missing, or HKDF or AES-GCM reads as the Optiga identity (an undefined macro reads as 0). |
| `VaultConfig.Atecc608aTableBuild` | implementations/c/source/ockam/vault/tpm/infineon/optiga_trust_x.c:130-130 | Any Optiga identity other than ATECC608A builds against the ATECC608A table. No equality-guarded section compiles. The init section compiles when the identity shares a bit with ATECC608A, so always for a TPM-class Optiga. |
| `VaultConfig.OptigaRuleNarrowerThanClassRule` | implementations/c/source/ockam/vault/tpm/infineon/optiga_trust_x.c:483-498 | The ATECC608A table binds HKDF and AES-GCM to a secure element, yet the Optiga build does not reject it. |
| `KeyStore.SlotOf` | implementations/c/source/ockam/vault/tpm/infineon/optiga_trust_x.c:257-264 | Static maps to key object E0F0 and ephemeral to E0F1. Any other value maps to no object. |
| `KeyStore.OffsetOf` | implementations/c/source/ockam/vault/tpm/infineon/optiga_trust_x.c:43-47 | Exactly the two known roles have an offset: static at `PUB_KEY_STATIC * 64` and ephemeral at `PUB_KEY_EPHEMERAL * 64`. Each offset is 64-aligned, and its slot lies inside the array. |
| `KeyStore.Layout` | implementations/c/source/ockam/vault/tpm/infineon/optiga_trust_x.c:41-47 | The array is 2 × 64 = 128 bytes. The static role's slot is at 0 and the ephemeral role's at 64. The two roles' slots do not overlap and together fill the array. |
| `KeyStore.ReadSlot` | implementations/c/source/ockam/vault/tpm/infineon/optiga_trust_x.c:308-316 | Reading a slot yields byte i of the key from array byte offset + i. |
| `KeyStore.WriteSlot` | implementations/c/source/ockam/vault/tpm/infineon/optiga_trust_x.c:266-271 | Writing a slot puts the key's 64 bytes at the offset and changes no other byte. |
| `KeyStore.ReadAfterWrite` | implementations/c/source/ockam/vault/tpm/infineon/optiga_trust_x.c:266-316 | Reading a slot just written returns the key written. |
| `KeyStore.WriteOtherSlot` | implementations/c/source/ockam/vault/tpm/infineon/optiga_trust_x.c:41-47 | Writing one role's slot leaves the other role's slot unchanged. |
| `PeerKey.Serialize` | implementations/c/source/ockam/vault/tpm/infineon/optiga_trust_x.c:75-83 | The packed record is 68 bytes: the four header fields at bytes 0 to 3, then the key bytes from byte 4. |
| `PeerKey.Parse` | implementations/c/source/ockam/vault/tpm/infineon/optiga_trust_x.c:75-83 | Parsing succeeds exactly on 68 bytes, and the record it yields serialises back to them. |
| `PeerKey.ParseSerialize` | implementations/c/source/ockam/vault/tpm/infineon/optiga_trust_x.c:75-83 | Every record survives serialising and parsing. |
| `PeerKey.WithKey` | implementations/c/source/ockam/vault/tpm/infineon/optiga_trust_x.c:360-362 | Copying the peer key replaces the key field and leaves the four header bytes as they were. |
| `PeerKey.EnvelopeLayout` | implementations/c/source/ockam/vault/tpm/infineon/optiga_trust_x.c:101-108 | A record built from the initial one reads `03 42 00 04` followed by the key. The remaining length, 0x42 = 66, counts the bytes after the first two of 68. |
| `OptigaTrustX.TpmInit` | implementations/c/source/ockam/vault/tpm/infineon/optiga_trust_x.c:138-168 | A null config gives INVALID_PARAM and a non-I2C interface gives UNSUPPORTED_IFACE, both without opening a session. Over I2C it makes exactly one open call: NONE if that succeeds, TPM_INIT_FAIL otherwise. |
| `OptigaTrustX.TpmFree` | implementations/c/source/ockam/vault/tpm/infineon/optiga_trust_x.c:177-180 | Free returns NONE, makes no call and changes nothing. |
| `OptigaTrustX.FreeIdempotent` | implementations/c/source/ockam/vault/tpm/infineon/optiga_trust_x.c:177-180 | A second free behaves exactly like the first and also returns NONE. |
| `OptigaTrustX.TpmRandom` | implementations/c/source/ockam/vault/tpm/infineon/optiga_trust_x.c:203-225 | A size of 0 or over 1024 gives SIZE_MISMATCH with no call. An accepted size reaches the library unchanged by the 16-bit cast. Library failure gives RAND_FAIL with no output. |
| `OptigaTrustX.KeyGen` | implementations/c/source/ockam/vault/tpm/infineon/optiga_trust_x.c:247-279 | An unknown role gives INVALID_PARAM with no call. A known role makes one call on its own key object, but the public key is written at the static offset. Library failure gives KEY_FAIL with no state change. The ephemeral slot and the peer record never change. |
| `OptigaTrustX.KeyGetPub` | implementations/c/source/ockam/vault/tpm/infineon/optiga_trust_x.c:288-326 | The checks run in order: null pointer (INVALID_PARAM), size ≠ 64 for every role (SIZE_MISMATCH), unknown role (INVALID_PARAM). A known role makes one 64-byte copy and returns the copy's status. The caller's buffer holds the role's 64 bytes exactly when that copy succeeded. The state never changes. |
| `OptigaTrustX.KeyGenThenGetPub` | implementations/c/source/ockam/vault/tpm/infineon/optiga_trust_x.c:257-322 | Generating the static key then reading it back returns the generated key. Generating either role leaves what the ephemeral read returns unchanged. |
| `OptigaTrustX.Ecdh` | implementations/c/source/ockam/vault/tpm/infineon/optiga_trust_x.c:335-388 | The checks run in order: null (INVALID_PARAM), then a peer size ≠ 64 or secret size ≠ 32 (SIZE_MISMATCH), both before any state change or call. The peer buffer must hold 64 bytes only when both pointers and both sizes are accepted, the one case in which it is read. The peer key is copied into the record before the role check, so an unknown role returns INVALID_PARAM with the record overwritten. The copy's status is discarded. Otherwise it makes one call with the serialised record and its 68-byte length; library failure gives KEY_FAIL. |
| `OptigaTrustX.EcdhIgnoresCopyStatus` | implementations/c/source/ockam/vault/tpm/infineon/optiga_trust_x.c:360-362 | A failed peer-key copy changes neither the outcome nor the calls made, and the library then receives the record left by the previous exchange. A peer size other than 64 is refused whatever the buffer holds. |
| `OptigaTrustX.InitialHeaderIntact` | implementations/c/source/ockam/vault/tpm/infineon/optiga_trust_x.c:101-108 | The peer record the program starts with has the intact `03 42 00 04` header, so the envelope property applies from the first ECDH on. |
| `OptigaTrustX.EcdhSendsEnvelope` | implementations/c/source/ockam/vault/tpm/infineon/optiga_trust_x.c:360-366 | From a state whose header is intact, the library receives `03 42 00 04` followed by the peer key, with a length equal to the record's size, and the header stays intact. |
| `OptigaTrustX.HashSteps` | implementations/c/source/ockam/vault/tpm/infineon/optiga_trust_x.c:427-461 | The calls are a prefix of allocation of `msg_size`, start, update and finalize, in that order, so they never free. A start is made exactly when the allocation succeeded, an update exactly when the start also succeeded, and a finalize exactly when the update also succeeded. An allocation error is kept; any later step failure becomes SHA256_FAIL. |
| `OptigaTrustX.Sha256` | implementations/c/source/ockam/vault/tpm/infineon/optiga_trust_x.c:410-470 | A digest size ≠ 32 gives SHA256_FAIL with no call. Otherwise the calls before the last are a prefix of allocation, start, update and finalize, in that order. The start is made exactly when the allocation succeeded, and no hash step follows a failed one. Free is called exactly once, as the last call, on a null buffer when allocation failed. An earlier error is kept, and free's status is reported only when every step succeeded. The context and update lengths equal `msg_size`. |
| `OptigaTrustX.Sha256FirstErrorWins` | implementations/c/source/ockam/vault/tpm/infineon/optiga_trust_x.c:427-466 | The reported error is the first failure in the order allocation, start, update, finalize, free. |
| `KeyGenFinding.KeyGenIntended` | implementations/c/source/ockam/vault/tpm/infineon/optiga_trust_x.c:247-279 | Corrected key generation stores the key in the generated role's own slot. Every other slot and the peer record stay unchanged, and the error cases are those of the source. |
| `KeyGenFinding.IntendedRoundTrip` | implementations/c/source/ockam/vault/tpm/infineon/optiga_trust_x.c:313-317 | With the corrected key generation, reading back either role returns its generated key, and the other role reads as before. |
| `KeyGenFinding.AsWrittenEphemeralIsStale` | implementations/c/source/ockam/vault/tpm/infineon/optiga_trust_x.c:266-271 | As written, from the initial state, generating a nonzero ephemeral key makes the ephemeral read return 64 zero bytes. The static read then returns the ephemeral key. |
| `KeyGenFinding.EphemeralExchange` | implementations/c/source/ockam/vault/tpm/infineon/optiga_trust_x.c:360-380 | Two vaults each generate an ephemeral key with the corrected key generation and read it back. Each one's ECDH record then carries exactly the other's key. |

## Left out

- The OPTIGA library (key generation, ECDH, SHA-256, TRNG) and the I2C session opened by `optiga_util_open_application` are opaque. Their status and output bytes are parameters.
- `ockam_mem_alloc`, `ockam_mem_free` and `ockam_mem_copy` are opaque and can fail. A failed allocation is assumed to leave the buffer pointer null, so the following free is a free of null.
- A failed key generation is assumed to leave the public-key array unchanged, since the library's partial writes are unknown.
- OptigaTrustX.KeyGen: the library is assumed to write exactly 64 bytes of public key. The call receives the key length as an in/out value initialised to 64, and the code never reads back the length the library reports, so neither does the model.
- The numeric values of `OCKAM_VAULT_KEY_e`, `VAULT_INFINEON_IFACE_e`, the error codes and the Optiga identity macro live in headers that are not part of this model. The roles and interfaces are symbolic, and the Optiga identity is a parameter.
- BackendIds.Decode: the field widths (nibble 0xF000 for class, nibble 0x0F00 for vendor, byte 0x00FF for part) are inferred from the defines; the header does not state them.
- HKDF and AES-GCM functionality has no implementation in this backend. Only the build rejection is modelled.
- Preprocessor mechanics are not modelled: `#include` and the order in which several `#error`s would be reported. A missing configuration file is reported alone.
- The ECDH mathematics is not modelled, so the two-vault scenario proves only that each side's ECDH call carries the other's key. It does not prove that both derive the same secret.
- Memory safety of the caller's buffers is outside the model. `Ecdh` requires only that the peer buffer holds 64 bytes once both pointers are non-null and both sizes accepted, because only then does the copy read it.
- OptigaTrustX.Ecdh: a failed `ockam_mem_copy` of the peer key is taken to leave the record as it was. Whatever partial write the helper might make is not modelled.
- OptigaTrustX.KeyGetPub: after a failed copy the caller's buffer is reported as holding nothing. Partial writes into it are not modelled.
- OptigaTrustX.TpmRandom: the output is the bytes the library reports. Their count is not tied to the requested size, because the library's write is opaque.
- The test driver and the test prototypes contain only call sequencing and logging.

## Findings

| source | as written | input that shows it | evidently intended | confidence | as-written member | corrected member |
|---|---|---|---|---|---|---|
| implementations/c/source/ockam/vault/tpm/infineon/optiga_trust_x.c:266-271 | `key_gen` hands the library the static slot of the public-key array as the output for both roles, while `key_get_pub` reads the ephemeral key from the ephemeral slot | From the initial state, `key_gen(EPHEMERAL)` returns key K ≠ 0; then `key_get_pub(EPHEMERAL)` returns 64 zero bytes and `key_get_pub(STATIC)` returns K | write at the generated role's offset, so reading back a role returns its generated key and the other slot is untouched | high, not executed | `KeyGenFinding.AsWrittenEphemeralIsStale` | `KeyGenFinding.KeyGenIntended` |

=== FILE: backend_ids.dfy ===
/** Backend identities of `ockam/vault/define.h`: a 32-bit word packing an
    execution class, a vendor and a part number into disjoint bit fields. The
    defines fix the class bits (0x1000, 0x2000), one vendor (0x100) and the
    parts 1 and 2; this model reads the fields as the nibble 0xF000 (class),
    the nibble 0x0F00 (vendor) and the byte 0x00FF (part). */
module BackendIds {
  import opened Common

  const CFG_TPM: bv32 := 0x1000
  const CFG_HOST: bv32 := 0x2000
  const CFG_TPM_MICROCHIP: bv32 := 0x100

  const TPM_MICROCHIP_ATECC508A: bv32 := CFG_TPM | CFG_TPM_MICROCHIP | 0x1
  const TPM_MICROCHIP_ATECC608A: bv32 := CFG_TPM | CFG_TPM_MICROCHIP | 0x2
  const HOST_MBEDCRYPTO: bv32 := CFG_HOST | 0x1

  const CLASS_MASK: bv32 := 0xF000
  const VENDOR_MASK: bv32 := 0x0F00
  const PART_MASK: bv32 := 0x00FF

  /** Where a backend executes: on a secure element or in host software. */
  datatype ExecClass = Tpm | Host

  datatype Vendor = NoVendor | Microchip

  /** The structured form of a backend identity word. */
  datatype BackendId = BackendId(cls: ExecClass, vendor: Vendor, part: bv8)

  function ClassBits(c: ExecClass): bv32 {
    match c
    case Tpm => CFG_TPM
    case Host => CFG_HOST
  }

  function VendorBits(v: Vendor): bv32 {
    match v
    case NoVendor => 0
    case Microchip => CFG_TPM_MICROCHIP
  }

  /** The identity word the defines build: class | vendor | part. */
  function Encode(id: BackendId): (w: bv32)
    ensures w & CLASS_MASK == ClassBits(id.cls)
    ensures w & VENDOR_MASK == VendorBits(id.vendor)
    ensures w & PART_MASK == id.part as bv32
    ensures w & !(CLASS_MASK | VENDOR_MASK | PART_MASK) == 0
  {
    ClassBits(id.cls) | VendorBits(id.vendor) | id.part as bv32
  }

  /** The execution class recovered by masking, if the class field holds a
      known class. A word classed TPM has the TPM bit set and the HOST bit
      clear, a word classed HOST the reverse, and every encoded identity is
      given its own class. */
  function ClassOf(w: bv32): (c: Option<ExecClass>)
    ensures c == Some(Tpm) ==> w & CFG_TPM != 0 && w & CFG_HOST == 0
    ensures c == Some(Host) ==> w & CFG_HOST != 0 && w & CFG_TPM == 0
    ensures (w & CFG_TPM != 0 && w & CFG_HOST != 0) || w & CLASS_MASK == 0 ==> c.None?
    ensures forall id :: Encode(id) == w ==> c == Some(id.cls)
  {
    var bits := w & CLASS_MASK;
    if bits == CFG_TPM then Some(Tpm)
    else if bits == CFG_HOST then Some(Host)
    else None
  }

  function VendorOf(w: bv32): Option<Vendor> {
    var bits := w & VENDOR_MASK;
    if bits == 0 then Some(NoVendor)
    else if bits == CFG_TPM_MICROCHIP then Some(Microchip)
    else None
  }

  /** Recovers the structured identity from a word; defined exactly on the
      words `Encode` produces. */
  function Decode(w: bv32): (r: Option<BackendId>)
    ensures r.Some? ==> Encode(r.value) == w
  {
    match (ClassOf(w), VendorOf(w))
    case (Some(c), Some(v)) =>
      if w & !(CLASS_MASK | VENDOR_MASK | PART_MASK) == 0
      then Some(BackendId(c, v, (w & PART_MASK) as bv8))
      else None
    case _ => None
  }

  /** Every identity survives encoding: the fields sit in disjoint bits. */
  lemma DecodeEncode(id: BackendId)
    ensures Decode(Encode(id)) == Some(id)
  {
    var w := Encode(id);
    assert ClassOf(w) == Some(id.cls) by {
      match id.cls
      case Tpm => assert w & CLASS_MASK == CFG_TPM;
      case Host => assert w & CLASS_MASK == CFG_HOST;
    }
    assert VendorOf(w) == Some(id.vendor) by {
      match id.vendor
      case NoVendor => assert w & VENDOR_MASK == 0;
      case Microchip => assert w & VENDOR_MASK == CFG_TPM_MICROCHIP;
    }
    assert (w & PART_MASK) as bv8 == id.part;
  }

  /** Encoding is injective: two identities with the same word are equal. */
  lemma EncodeInjective(a: BackendId, b: BackendId)
    ensures Encode(a) == Encode(b) ==> a == b
  {
    DecodeEncode(a);
    DecodeEncode(b);
  }

  /** The three concrete identities have the values the bit fields predict
      and decode to the class, vendor and part they were built from. */
  lemma ConcreteIdentities()
    ensures TPM_MICROCHIP_ATECC508A == 0x1101
    ensures TPM_MICROCHIP_ATECC608A == 0x1102
    ensures HOST_MBEDCRYPTO == 0x2001
    ensures Decode(TPM_MICROCHIP_ATECC508A) == Some(BackendId(Tpm, Microchip, 1))
    ensures Decode(TPM_MICROCHIP_ATECC608A) == Some(BackendId(Tpm, Microchip, 2))
    ensures Decode(HOST_MBEDCRYPTO) == Some(BackendId(Host, NoVendor, 1))
  {
    assert Encode(BackendId(Tpm, Microchip, 1)) == TPM_MICROCHIP_ATECC508A;
    assert Encode(BackendId(Tpm, Microchip, 2)) == TPM_MICROCHIP_ATECC608A;
    assert Encode(BackendId(Host, NoVendor, 1)) == HOST_MBEDCRYPTO;
  }

  /** The class bits are distinct single bits; both TPM parts carry the TPM
      bit and not the HOST bit, and the host library the reverse. */
  lemma ClassBitsSeparateParts()
    ensures CFG_TPM != 0 && CFG_TPM & (CFG_TPM - 1) == 0
    ensures CFG_HOST != 0 && CFG_HOST & (CFG_HOST - 1) == 0
    ensures CFG_TPM & CFG_HOST == 0
    ensures TPM_MICROCHIP_ATECC508A & CFG_TPM != 0 && TPM_MICROCHIP_ATECC508A & CFG_HOST == 0
    ensures TPM_MICROCHIP_ATECC608A & CFG_TPM != 0 && TPM_MICROCHIP_ATECC608A & CFG_HOST == 0
    ensures HOST_MBEDCRYPTO & CFG_HOST != 0 && HOST_MBEDCRYPTO & CFG_TPM == 0
  {
  }

  /** The vendor bit shares no bit with the class bits or the part numbers,
      so masking recovers each field; hence the identities are distinct. */
  lemma FieldsAreDisjoint()
    ensures CFG_TPM_MICROCHIP & (CFG_TPM | CFG_HOST) == 0
    ensures CFG_TPM_MICROCHIP & 0x1 == 0 && CFG_TPM_MICROCHIP & 0x2 == 0
    ensures TPM_MICROCHIP_ATECC508A != TPM_MICROCHIP_ATECC608A
    ensures TPM_MICROCHIP_ATECC508A != HOST_MBEDCRYPTO
    ensures TPM_MICROCHIP_ATECC608A != HOST_MBEDCRYPTO
  {
  }
}

=== FILE: common.dfy ===
/** Shared vocabulary of the vault model: bytes, the C integer widths the
    Optiga backend's signatures use, an option type, and caller buffers. */
module Common {

  /** One `uint8_t` of memory. */
  type byte = x: int | 0 <= x < 0x100

  /** The unsigned C integer widths that appear in the backend's signatures. */
  type u8 = byte
  type u16 = x: int | 0 <= x < 0x1_0000
  type u32 = x: int | 0 <= x < 0x1_0000_0000

  datatype Option<+T> = None | Some(value: T)

  /** A pointer the caller passes for the backend to write into: only whether
      it is null matters to the validation layer. */
  datatype OutPtr = NullPtr | ValidPtr

  /** A pointer the caller passes for the backend to read from: null, or the
      bytes it points at. */
  datatype InBuf = NullBuf | Buf(bytes: seq<byte>)

  /** `n` zero bytes, the contents of a zero-initialised C array. */
  function Zeros(n: nat): (z: seq<byte>)
    ensures |z| == n
    ensures forall i :: 0 <= i < n ==> z[i] == 0
  {
    seq(n, _ => 0)
  }

  /** The C conversion `(uint16_t) x`: keeps the low sixteen bits. */
  function CastU16(x: u32): (r: u16)
    ensures x < 0x1_0000 ==> r == x
    ensures x == r + (x / 0x1_0000) * 0x1_0000
  {
    x % 0x1_0000
  }
}

=== FILE: errors.dfy ===
/** The outcome values the Optiga backend returns and receives. Every outcome
    is a value, never an exception. */
module Errors {

  /** `OCKAM_ERR`, restricted to the codes the Optiga backend produces, plus
      the codes the memory helpers may return (their numbering lives in
      `ockam/error.h`, which is not part of this model). */
  datatype OckamErr =
    | NoError                 // OCKAM_ERR_NONE
    | InvalidParam            // OCKAM_ERR_INVALID_PARAM
    | SizeMismatch            // OCKAM_ERR_VAULT_SIZE_MISMATCH
    | TpmInitFail             // OCKAM_ERR_VAULT_TPM_INIT_FAIL
    | TpmUnsupportedIface     // OCKAM_ERR_VAULT_TPM_UNSUPPORTED_IFACE
    | TpmRandFail             // OCKAM_ERR_VAULT_TPM_RAND_FAIL
    | TpmKeyFail              // OCKAM_ERR_VAULT_TPM_KEY_FAIL
    | TpmSha256Fail           // OCKAM_ERR_VAULT_TPM_SHA256_FAIL
    | MemoryErr(code: int)    // any other code a memory helper reports

  /** `optiga_lib_status_t`: the status a call into the OPTIGA library returns. */
  datatype LibStatus = LibSuccess | LibError(code: int)

  /** The error that wins in a sequence of step outcomes: the first one that
      is not `NoError`, or `NoError` when every step succeeded. */
  function FirstError(steps: seq<OckamErr>): (e: OckamErr)
    ensures e == NoError <==> forall i :: 0 <= i < |steps| ==> steps[i] == NoError
    ensures e != NoError ==>
      exists j :: 0 <= j < |steps| && steps[j] == e && forall i :: 0 <= i < j ==> steps[i] == NoError
  {
    if |steps| == 0 then NoError
    else if steps[0] != NoError then steps[0]
    else FirstError(steps[1..])
  }

  /** Appending steps after a failure cannot change the winner; appending them
      after a run of successes hands the decision to the new steps. */
  lemma {:induction false} FirstErrorAppend(a: seq<OckamErr>, b: seq<OckamErr>)
    ensures FirstError(a + b) == if FirstError(a) != NoError then FirstError(a) else FirstError(b)
  {
    if |a| == 0 {
      assert a + b == b;
    } else {
      assert (a + b)[0] == a[0];
      assert (a + b)[1..] == a[1..] + b;
      FirstErrorAppend(a[1..], b);
    }
  }
}

=== FILE: key_gen_finding.dfy ===
/** Key generation writes the new public key at the static offset for both
    roles, while reading the ephemeral key uses the ephemeral offset. So a
    freshly generated ephemeral key cannot be read back, and generating it
    overwrites the static public key. This module shows the discrepancy on
    the as-written `KeyGen` and proves the round trip for `KeyGenIntended`,
    which writes at the generated role's own offset. */
module KeyGenFinding {
  import opened Common
  import opened Errors
  import opened KeyStore
  import opened PeerKey
  import opened OptigaTrustX

  /** Key generation storing the public key in the generated role's slot. */
  function KeyGenIntended(s: State, t: KeyType, gen: LibStatus, key: PubKey): (r: Reply<()>)
    ensures !KnownKeyType(t) ==> r.err == InvalidParam && r.calls == [] && r.state == s
    ensures KnownKeyType(t) ==> r.calls == [GenerateKeyPair(SlotOf(t).value, OffsetOf(t).value)]
    ensures r.err == NoError <==> KnownKeyType(t) && gen.LibSuccess?
    ensures KnownKeyType(t) && gen.LibError? ==> r.err == TpmKeyFail && r.state == s
    ensures r.err == NoError ==> ReadSlot(r.state.pubKeys, OffsetOf(t).value) == key
    ensures forall other: KeyType :: KnownKeyType(other) && other != t ==>
      ReadSlot(r.state.pubKeys, OffsetOf(other).value) == ReadSlot(s.pubKeys, OffsetOf(other).value)
    ensures r.state.peer == s.peer
  {
    match OffsetOf(t)
    case None => Reply(InvalidParam, [], (), s)
    case Some(off) =>
      var call := GenerateKeyPair(SlotOf(t).value, off);
      if gen.LibError? then Reply(TpmKeyFail, [call], (), s)
      else
        var keys := WriteSlot(s.pubKeys, off, key);
        ReadAfterWrite(s.pubKeys, off, key);
        assert forall other: KeyType :: KnownKeyType(other) && other != t ==>
          ReadSlot(keys, OffsetOf(other).value) == ReadSlot(s.pubKeys, OffsetOf(other).value) by {
          forall other: KeyType | KnownKeyType(other) && other != t
            ensures ReadSlot(keys, OffsetOf(other).value) == ReadSlot(s.pubKeys, OffsetOf(other).value)
          {
            WriteOtherSlot(s.pubKeys, t, other, key);
          }
        }
        Reply(NoError, [call], (), State(keys, s.peer))
  }

  /** For either role, generating and then reading back the same role
      returns the generated key, and the other role's key is untouched. */
  lemma IntendedRoundTrip(s: State, t: KeyType, other: KeyType, k: PubKey)
    requires KnownKeyType(t) && KnownKeyType(other) && other != t
    ensures KeyGetPub(KeyGenIntended(s, t, LibSuccess, k).state, t, ValidPtr, PUB_KEY_SIZE, NoError).out == Some(k)
    ensures KeyGetPub(KeyGenIntended(s, t, LibSuccess, k).state, other, ValidPtr, PUB_KEY_SIZE, NoError).out
         == KeyGetPub(s, other, ValidPtr, PUB_KEY_SIZE, NoError).out
  {
    var g := KeyGenIntended(s, t, LibSuccess, k);
    assert ReadSlot(g.state.pubKeys, OffsetOf(t).value) == k;
    assert ReadSlot(g.state.pubKeys, OffsetOf(other).value) == ReadSlot(s.pubKeys, OffsetOf(other).value);
  }

  /** The as-written discrepancy, from the state the program starts in:
      after generating a nonzero ephemeral key, reading the ephemeral key
      returns 64 zero bytes rather than the key, and the static key now
      reads as the ephemeral one. */
  lemma AsWrittenEphemeralIsStale(k: PubKey)
    requires k != Zeros(PUB_KEY_SIZE)
    ensures KeyGetPub(KeyGen(INITIAL_STATE, Ephemeral, LibSuccess, k).state, Ephemeral, ValidPtr, PUB_KEY_SIZE, NoError).out
         == Some(Zeros(PUB_KEY_SIZE))
    ensures KeyGetPub(KeyGen(INITIAL_STATE, Ephemeral, LibSuccess, k).state, Ephemeral, ValidPtr, PUB_KEY_SIZE, NoError).out
         != Some(k)
    ensures KeyGetPub(KeyGen(INITIAL_STATE, Ephemeral, LibSuccess, k).state, Static, ValidPtr, PUB_KEY_SIZE, NoError).out
         == Some(k)
  {
    var g := KeyGen(INITIAL_STATE, Ephemeral, LibSuccess, k);
    var z := ReadSlot(INITIAL_STATE.pubKeys, EPHEMERAL_OFFSET);
    assert z == Zeros(PUB_KEY_SIZE) by {
      assert forall i :: 0 <= i < PUB_KEY_SIZE ==> z[i] == 0;
    }
    assert ReadSlot(g.state.pubKeys, EPHEMERAL_OFFSET) == z;
    assert ReadSlot(g.state.pubKeys, STATIC_OFFSET) == k;
  }

  /** Two vaults exchange ephemeral keys: each generates one, reads it back,
      and hands it to the other, whose ECDH call then carries exactly the
      other side's generated key in its peer record. With the as-written
      `KeyGen` the first read already returns the stale slot. */
  lemma EphemeralExchange(a: State, b: State, ka: PubKey, kb: PubKey,
                          ecdh: LibStatus, secret: Secret)
    requires HeaderIntact(a) && HeaderIntact(b)
    ensures
      var a1 := KeyGenIntended(a, Ephemeral, LibSuccess, ka).state;
      var b1 := KeyGenIntended(b, Ephemeral, LibSuccess, kb).state;
      var pa := KeyGetPub(a1, Ephemeral, ValidPtr, PUB_KEY_SIZE, NoError).out;
      var pb := KeyGetPub(b1, Ephemeral, ValidPtr, PUB_KEY_SIZE, NoError).out;
      && pa == Some(ka) && pb == Some(kb)
      && Ecdh(a1, Ephemeral, Buf(pb.value), PUB_KEY_SIZE, ValidPtr, PMS_SIZE, NoError, ecdh, secret).calls[1].record
         == [0x03, 0x42, 0x00, 0x04] + kb
      && Ecdh(b1, Ephemeral, Buf(pa.value), PUB_KEY_SIZE, ValidPtr, PMS_SIZE, NoError, ecdh, secret).calls[1].record
         == [0x03, 0x42, 0x00, 0x04] + ka
  {
    var a1 := KeyGenIntended(a, Ephemeral, LibSuccess, ka).state;
    var b1 := KeyGenIntended(b, Ephemeral, LibSuccess, kb).state;
    IntendedRoundTrip(a, Ephemeral, Static, ka);
    IntendedRoundTrip(b, Ephemeral, Static, kb);
    assert HeaderIntact(a1) && HeaderIntact(b1);
    EcdhSendsEnvelope(a1, Ephemeral, kb, ecdh, secret);
    EcdhSendsEnvelope(b1, Ephemeral, ka, ecdh, secret);
  }
}

=== FILE: key_store.dfy ===
/** The host-side copy of the Optiga's public keys: one global byte array of
    `NUM_KEYS * PUB_KEY_SIZE` bytes with one 64-byte slot per key role. The
    private halves stay inside the secure element, in the key-store objects
    E0F0 (static) and E0F1 (ephemeral). */
module KeyStore {
  import opened Common

  const NUM_KEYS: nat := 2
  /** NIST P-256 public key: the two 32-byte coordinates, uncompressed. */
  const PUB_KEY_SIZE: nat := 64
  const PUB_KEY_STATIC: nat := 0
  const PUB_KEY_EPHEMERAL: nat := 1

  const STATIC_OFFSET: nat := PUB_KEY_STATIC * PUB_KEY_SIZE
  const EPHEMERAL_OFFSET: nat := PUB_KEY_EPHEMERAL * PUB_KEY_SIZE
  const STORE_SIZE: nat := NUM_KEYS * PUB_KEY_SIZE

  type PubKey = k: seq<byte> | |k| == PUB_KEY_SIZE witness Zeros(PUB_KEY_SIZE)

  /** The contents of the global public-key array. */
  type Store = s: seq<byte> | |s| == STORE_SIZE witness Zeros(STORE_SIZE)

  /** `OCKAM_VAULT_KEY_e`: a C enum, so a caller can pass values outside the
      two the backend recognises. */
  datatype KeyType = Static | Ephemeral | UnknownKeyType(raw: int)

  /** The secure element's key-store objects. */
  datatype SlotId = E0F0 | E0F1

  predicate KnownKeyType(t: KeyType) {
    t.Static? || t.Ephemeral?
  }

  /** The secure-element key object the backend uses for a role. */
  function SlotOf(t: KeyType): (s: Option<SlotId>)
    ensures s.Some? <==> KnownKeyType(t)
    ensures t.Static? ==> s == Some(E0F0)
    ensures t.Ephemeral? ==> s == Some(E0F1)
  {
    match t
    case Static => Some(E0F0)
    case Ephemeral => Some(E0F1)
    case UnknownKeyType(_) => None
  }

  /** The offset of a role's slot in the public-key array. */
  function OffsetOf(t: KeyType): (o: Option<nat>)
    ensures o.Some? <==> KnownKeyType(t)
    ensures o.Some? ==> o.value + PUB_KEY_SIZE <= STORE_SIZE
    ensures o.Some? ==> o.value % PUB_KEY_SIZE == 0
    ensures t.Static? ==> o == Some(STATIC_OFFSET)
    ensures t.Ephemeral? ==> o == Some(EPHEMERAL_OFFSET)
  {
    match t
    case Static => Some(STATIC_OFFSET)
    case Ephemeral => Some(EPHEMERAL_OFFSET)
    case UnknownKeyType(_) => None
  }

  /** The two slots lie inside the array, do not overlap, and together cover
      it: static at bytes 0..63, ephemeral at bytes 64..127. */
  lemma Layout()
    ensures STORE_SIZE == 128
    ensures OffsetOf(Static) == Some(0) && OffsetOf(Ephemeral) == Some(64)
    ensures forall a: KeyType, b: KeyType :: KnownKeyType(a) && KnownKeyType(b) && a != b ==>
      OffsetOf(a).value + PUB_KEY_SIZE <= OffsetOf(b).value || OffsetOf(b).value + PUB_KEY_SIZE <= OffsetOf(a).value
    ensures STATIC_OFFSET == 0 && EPHEMERAL_OFFSET == 64
    ensures STATIC_OFFSET + PUB_KEY_SIZE <= EPHEMERAL_OFFSET
    ensures EPHEMERAL_OFFSET + PUB_KEY_SIZE == STORE_SIZE
  {
  }

  /** The 64 bytes of the slot starting at `off`. */
  function ReadSlot(s: Store, off: nat): (k: PubKey)
    requires off + PUB_KEY_SIZE <= STORE_SIZE
    ensures forall i :: 0 <= i < PUB_KEY_SIZE ==> k[i] == s[off + i]
  {
    s[off..off + PUB_KEY_SIZE]
  }

  /** The array after 64 bytes are written at `off`. */
  function WriteSlot(s: Store, off: nat, k: PubKey): (s': Store)
    requires off + PUB_KEY_SIZE <= STORE_SIZE
    ensures forall i :: 0 <= i < PUB_KEY_SIZE ==> s'[off + i] == k[i]
    ensures forall i :: 0 <= i < STORE_SIZE && !(off <= i < off + PUB_KEY_SIZE) ==> s'[i] == s[i]
  {
    s[..off] + k + s[off + PUB_KEY_SIZE..]
  }

  /** Reading a slot right after writing it returns the key written. */
  lemma ReadAfterWrite(s: Store, off: nat, k: PubKey)
    requires off + PUB_KEY_SIZE <= STORE_SIZE
    ensures ReadSlot(WriteSlot(s, off, k), off) == k
  {
    var r := ReadSlot(WriteSlot(s, off, k), off);
    assert forall i :: 0 <= i < PUB_KEY_SIZE ==> r[i] == k[i];
  }

  /** Writing one role's slot leaves the other role's slot as it was. */
  lemma WriteOtherSlot(s: Store, written: KeyType, read: KeyType, k: PubKey)
    requires KnownKeyType(written) && KnownKeyType(read) && written != read
    ensures ReadSlot(WriteSlot(s, OffsetOf(written).value, k), OffsetOf(read).value)
         == ReadSlot(s, OffsetOf(read).value)
  {
    var w := OffsetOf(written).value;
    var o := OffsetOf(read).value;
    var a := ReadSlot(WriteSlot(s, w, k), o);
    var b := ReadSlot(s, o);
    assert w + PUB_KEY_SIZE <= o || o + PUB_KEY_SIZE <= w;
    assert forall i :: 0 <= i < PUB_KEY_SIZE ==> a[i] == b[i];
  }
}

=== FILE: optiga_trust_x.dfy ===
/** The vault operations of the Infineon OPTIGA Trust X backend: parameter
    validation, the host-side key and peer-record state, and how library and
    allocator outcomes become one `OckamErr`.

    Every call into the OPTIGA library and the memory helpers is opaque: its
    outcome (and any bytes it produces) is a parameter, and the operation
    records the call it makes in a trace, so "no backend call" and "freed
    exactly once" can be stated about the trace. */
module OptigaTrustX {
  import opened Common
  import opened Errors
  import opened KeyStore
  import opened PeerKey

  /** The largest random request passed to the secure element. */
  const RAND_NUM_SIZE_MAX: nat := 1024
  /** The ECDH pre-master secret is always 32 bytes. */
  const PMS_SIZE: nat := 32
  const SHA256_DIGEST_SIZE: nat := 32

  type Secret = s: seq<byte> | |s| == PMS_SIZE witness Zeros(PMS_SIZE)
  type Digest = d: seq<byte> | |d| == SHA256_DIGEST_SIZE witness Zeros(SHA256_DIGEST_SIZE)

  /** A call into the OPTIGA library or the memory helpers, with the
      arguments this layer computes for it. */
  datatype Call =
    | OpenApplication(ifaceCfg: int)
    | CryptRandom(randLength: u16)
    | GenerateKeyPair(slot: SlotId, pubKeyOffset: nat)
    | MemCopy(length: nat)
    | CryptEcdh(slot: SlotId, recordLength: nat, record: seq<byte>)
    | MemAlloc(size: nat)
    | HashStart(contextLength: nat)
    | HashUpdate(dataLength: nat)
    | HashFinalize
    | MemFree(nullBuffer: bool)

  /** The backend's globals: the public-key array and the peer record. */
  datatype State = State(pubKeys: Store, peer: PeerRecord)

  /** The globals as the C runtime initialises them. */
  const INITIAL_STATE: State := State(Zeros(STORE_SIZE), INITIAL_RECORD)

  /** What an operation returns, the calls it made and what it produced. */
  datatype Outcome<T> = Outcome(err: OckamErr, calls: seq<Call>, out: T)

  /** An `Outcome` together with the globals afterwards. */
  datatype Reply<T> = Reply(err: OckamErr, calls: seq<Call>, out: T, state: State)

  // ---------------------------------------------------------------- init/free

  /** `VAULT_INFINEON_IFACE_e`: only I2C is supported. */
  datatype Iface = I2c | OtherIface(raw: int)

  /** `VAULT_INFINEON_CFG_s`; the interface configuration is opaque. */
  datatype InfineonCfg = InfineonCfg(iface: Iface, ifaceCfg: int)

  /** `ockam_vault_tpm_init`: `cfg` is `None` for a null argument, `open` the
      status of opening the OPTIGA application. */
  function TpmInit(cfg: Option<InfineonCfg>, open: LibStatus): (r: Outcome<()>)
    ensures cfg.None? ==> r.err == InvalidParam && r.calls == []
    ensures cfg.Some? && !cfg.value.iface.I2c? ==> r.err == TpmUnsupportedIface && r.calls == []
    ensures cfg.Some? && cfg.value.iface.I2c? ==> r.calls == [OpenApplication(cfg.value.ifaceCfg)]
    ensures r.err == NoError <==> cfg.Some? && cfg.value.iface.I2c? && open.LibSuccess?
    ensures cfg.Some? && cfg.value.iface.I2c? && open.LibError? ==> r.err == TpmInitFail
  {
    match cfg
    case None => Outcome(InvalidParam, [], ())
    case Some(c) =>
      if c.iface.I2c? then
        var call := OpenApplication(c.ifaceCfg);
        if open.LibSuccess? then Outcome(NoError, [call], ()) else Outcome(TpmInitFail, [call], ())
      else Outcome(TpmUnsupportedIface, [], ())
  }

  /** `ockam_vault_tpm_free`: holds nothing to release. */
  function TpmFree(s: State): (r: Reply<()>)
    ensures r.err == NoError && r.calls == [] && r.state == s
  {
    Reply(NoError, [], (), s)
  }

  /** Freeing twice is the same as freeing once, and succeeds both times. */
  lemma FreeIdempotent(s: State)
    ensures TpmFree(TpmFree(s).state) == TpmFree(s)
    ensures TpmFree(TpmFree(s).state).err == NoError
  {
  }

  // ------------------------------------------------------------------- random

  predicate RandomSizeAccepted(size: u32) {
    0 < size <= RAND_NUM_SIZE_MAX
  }

  /** `ockam_vault_tpm_random`: `trng` is the library's status and `produced`
      the bytes it wrote. The size is narrowed to 16 bits for the library. */
  function TpmRandom(size: u32, trng: LibStatus, produced: seq<byte>): (r: Outcome<Option<seq<byte>>>)
    ensures !RandomSizeAccepted(size) ==> r.err == SizeMismatch && r.calls == [] && r.out.None?
    ensures RandomSizeAccepted(size) ==> r.calls == [CryptRandom(size)]
    ensures r.err == NoError <==> RandomSizeAccepted(size) && trng.LibSuccess?
    ensures RandomSizeAccepted(size) && trng.LibError? ==> r.err == TpmRandFail && r.out.None?
    ensures r.err == NoError ==> r.out == Some(produced)
  {
    if size <= 0 || size > RAND_NUM_SIZE_MAX then Outcome(SizeMismatch, [], None)
    else
      var call := CryptRandom(CastU16(size));
      if trng.LibSuccess? then Outcome(NoError, [call], Some(produced))
      else Outcome(TpmRandFail, [call], None)
  }

  // --------------------------------------------------------------------- keys

  /** `ockam_vault_tpm_key_gen`, as written: the library writes the new public
      key at the static offset whichever role is generated. `gen` is the
      library's status and `key` the public key it returns. */
  function KeyGen(s: State, t: KeyType, gen: LibStatus, key: PubKey): (r: Reply<()>)
    ensures !KnownKeyType(t) ==> r.err == InvalidParam && r.calls == [] && r.state == s
    ensures KnownKeyType(t) ==> r.calls == [GenerateKeyPair(SlotOf(t).value, STATIC_OFFSET)]
    ensures r.err == NoError <==> KnownKeyType(t) && gen.LibSuccess?
    ensures KnownKeyType(t) && gen.LibError? ==> r.err == TpmKeyFail && r.state == s
    ensures r.err == NoError ==> ReadSlot(r.state.pubKeys, STATIC_OFFSET) == key
    ensures ReadSlot(r.state.pubKeys, EPHEMERAL_OFFSET) == ReadSlot(s.pubKeys, EPHEMERAL_OFFSET)
    ensures r.state.peer == s.peer
  {
    match SlotOf(t)
    case None => Reply(InvalidParam, [], (), s)
    case Some(slot) =>
      var call := GenerateKeyPair(slot, STATIC_OFFSET);
      if gen.LibError? then Reply(TpmKeyFail, [call], (), s)
      else
        var keys := WriteSlot(s.pubKeys, STATIC_OFFSET, key);
        ReadAfterWrite(s.pubKeys, STATIC_OFFSET, key);
        WriteOtherSlot(s.pubKeys, Static, Ephemeral, key);
        Reply(NoError, [call], (), State(keys, s.peer))
  }

  /** `ockam_vault_tpm_key_get_pub`: checks the pointer, then the size (for
      every role), then the role; then copies the role's 64 bytes, reporting
      the copy helper's status `copy`. The caller's buffer holds the key
      only when that copy succeeded. */
  function KeyGetPub(s: State, t: KeyType, buf: OutPtr, size: u32, copy: OckamErr): (r: Reply<Option<PubKey>>)
    ensures r.state == s
    ensures buf.NullPtr? ==> r.err == InvalidParam && r.calls == []
    ensures buf.ValidPtr? && size != PUB_KEY_SIZE ==> r.err == SizeMismatch && r.calls == []
    ensures buf.ValidPtr? && size == PUB_KEY_SIZE && !KnownKeyType(t) ==> r.err == InvalidParam && r.calls == []
    ensures buf.ValidPtr? && size == PUB_KEY_SIZE && KnownKeyType(t) ==>
      r.err == copy && r.calls == [MemCopy(PUB_KEY_SIZE)]
    ensures r.out.Some? <==> buf.ValidPtr? && size == PUB_KEY_SIZE && KnownKeyType(t) && copy == NoError
    ensures r.out.Some? <==> r.err == NoError
    ensures r.out.Some? ==> r.out.value == ReadSlot(s.pubKeys, OffsetOf(t).value)
  {
    if buf.NullPtr? then Reply(InvalidParam, [], None, s)
    else if size != PUB_KEY_SIZE then Reply(SizeMismatch, [], None, s)
    else match OffsetOf(t)
      case None => Reply(InvalidParam, [], None, s)
      case Some(off) =>
        var out := if copy == NoError then Some(ReadSlot(s.pubKeys, off)) else None;
        Reply(copy, [MemCopy(size)], out, s)
  }

  /** Generating the static key and then reading it back returns the key the
      library produced; the ephemeral slot reads as it did before any
      generation, whichever role was generated. */
  lemma KeyGenThenGetPub(s: State, t: KeyType, k: PubKey)
    ensures KeyGen(s, Static, LibSuccess, k).err == NoError
    ensures KeyGetPub(KeyGen(s, Static, LibSuccess, k).state, Static, ValidPtr, PUB_KEY_SIZE, NoError)
         == Reply(NoError, [MemCopy(PUB_KEY_SIZE)], Some(k), KeyGen(s, Static, LibSuccess, k).state)
    ensures KeyGetPub(KeyGen(s, t, LibSuccess, k).state, Ephemeral, ValidPtr, PUB_KEY_SIZE, NoError).out
         == KeyGetPub(s, Ephemeral, ValidPtr, PUB_KEY_SIZE, NoError).out
  {
    var g := KeyGen(s, Static, LibSuccess, k);
    assert ReadSlot(g.state.pubKeys, STATIC_OFFSET) == k;
    var e := KeyGen(s, t, LibSuccess, k);
    assert ReadSlot(e.state.pubKeys, EPHEMERAL_OFFSET) == ReadSlot(s.pubKeys, EPHEMERAL_OFFSET);
  }

  // --------------------------------------------------------------------- ECDH

  /** Both sizes and both pointers accepted: the point from which `Ecdh`
      changes state. */
  predicate EcdhArgsAccepted(peer: InBuf, peerSize: u32, pms: OutPtr, pmsSize: u32) {
    peer.Buf? && pms.ValidPtr? && peerSize == PUB_KEY_SIZE && pmsSize == PMS_SIZE
  }

  /** `ockam_vault_tpm_ecdh`: checks both pointers, then both sizes; copies
      the peer key into the global record, discarding the copy helper's
      status `copy` (a failed copy is taken to leave the record as it was);
      then checks the role and hands the serialised record to the library.
      `ecdh` is the library's status and `secret` the bytes it writes. The
      peer buffer is read only once both pointers and both sizes have been
      accepted, so only then must it hold 64 bytes. */
  function Ecdh(s: State, t: KeyType, peer: InBuf, peerSize: u32, pms: OutPtr, pmsSize: u32,
                copy: OckamErr, ecdh: LibStatus, secret: Secret): (r: Reply<Option<Secret>>)
    requires EcdhArgsAccepted(peer, peerSize, pms, pmsSize) ==> PUB_KEY_SIZE <= |peer.bytes|
    ensures peer.NullBuf? || pms.NullPtr? ==> r.err == InvalidParam && r.calls == [] && r.state == s
    ensures peer.Buf? && pms.ValidPtr? && (peerSize != PUB_KEY_SIZE || pmsSize != PMS_SIZE) ==>
      r.err == SizeMismatch && r.calls == [] && r.state == s
    ensures r.state.pubKeys == s.pubKeys
    ensures EcdhArgsAccepted(peer, peerSize, pms, pmsSize) ==>
      && (copy == NoError ==> r.state.peer == WithKey(s.peer, peer.bytes[..PUB_KEY_SIZE]))
      && (copy != NoError ==> r.state.peer == s.peer)
      && |r.calls| > 0 && r.calls[0] == MemCopy(PUB_KEY_SIZE)
    ensures EcdhArgsAccepted(peer, peerSize, pms, pmsSize) && !KnownKeyType(t) ==>
      r.err == InvalidParam && r.calls == [MemCopy(PUB_KEY_SIZE)]
    ensures EcdhArgsAccepted(peer, peerSize, pms, pmsSize) && KnownKeyType(t) ==>
      r.calls == [MemCopy(PUB_KEY_SIZE), CryptEcdh(SlotOf(t).value, RECORD_SIZE, Serialize(r.state.peer))]
    ensures r.err == NoError <==> EcdhArgsAccepted(peer, peerSize, pms, pmsSize) && KnownKeyType(t) && ecdh.LibSuccess?
    ensures EcdhArgsAccepted(peer, peerSize, pms, pmsSize) && KnownKeyType(t) && ecdh.LibError? ==> r.err == TpmKeyFail
    ensures r.out.Some? <==> r.err == NoError
    ensures r.out.Some? ==> r.out.value == secret
  {
    if peer.NullBuf? || pms.NullPtr? then Reply(InvalidParam, [], None, s)
    else if peerSize != PUB_KEY_SIZE || pmsSize != PMS_SIZE then Reply(SizeMismatch, [], None, s)
    else
      var copied := if copy == NoError then State(s.pubKeys, WithKey(s.peer, peer.bytes[..peerSize])) else s;
      var copyCall := MemCopy(peerSize);
      match SlotOf(t)
      case None => Reply(InvalidParam, [copyCall], None, copied)
      case Some(slot) =>
        var call := CryptEcdh(slot, RECORD_SIZE, Serialize(copied.peer));
        if ecdh.LibSuccess? then Reply(NoError, [copyCall, call], Some(secret), copied)
        else Reply(TpmKeyFail, [copyCall, call], None, copied)
  }

  /** The copy helper's status changes neither the outcome nor the calls
      made, only what the record holds: a failed copy hands the library the
      record left by the previous exchange. And a size other than 64 is
      refused before the buffer is read, however short the buffer is. */
  lemma EcdhIgnoresCopyStatus(s: State, t: KeyType, peer: seq<byte>, failed: OckamErr,
                              ecdh: LibStatus, secret: Secret)
    requires |peer| == PUB_KEY_SIZE && KnownKeyType(t) && failed != NoError
    ensures Ecdh(s, t, Buf(peer), PUB_KEY_SIZE, ValidPtr, PMS_SIZE, failed, ecdh, secret).err
         == Ecdh(s, t, Buf(peer), PUB_KEY_SIZE, ValidPtr, PMS_SIZE, NoError, ecdh, secret).err
    ensures Ecdh(s, t, Buf(peer), PUB_KEY_SIZE, ValidPtr, PMS_SIZE, failed, ecdh, secret).calls
         == [MemCopy(PUB_KEY_SIZE), CryptEcdh(SlotOf(t).value, RECORD_SIZE, Serialize(s.peer))]
    ensures Ecdh(s, t, Buf([]), PUB_KEY_SIZE + 1, ValidPtr, PMS_SIZE, failed, ecdh, secret).err == SizeMismatch
  {
  }

  /** The peer record keeps the header it was initialised with. */
  predicate HeaderIntact(s: State) {
    s.peer == WithKey(INITIAL_RECORD, s.peer.publicKey)
  }

  /** The program starts with an intact header, so the envelope properties
      below hold from the first ECDH on. */
  lemma InitialHeaderIntact()
    ensures HeaderIntact(INITIAL_STATE)
  {
  }

  /** From any state with an intact header, ECDH hands the library the record
      `03 42 00 04 || peer key` and, as its length, the record's size. */
  lemma EcdhSendsEnvelope(s: State, t: KeyType, peer: seq<byte>, ecdh: LibStatus, secret: Secret)
    requires HeaderIntact(s)
    requires |peer| == PUB_KEY_SIZE && KnownKeyType(t)
    ensures Ecdh(s, t, Buf(peer), PUB_KEY_SIZE, ValidPtr, PMS_SIZE, NoError, ecdh, secret).calls[1]
         == CryptEcdh(SlotOf(t).value, RECORD_SIZE, [0x03, 0x42, 0x00, 0x04] + peer)
    ensures RECORD_SIZE == |[0x03, 0x42, 0x00, 0x04] + peer|
    ensures HeaderIntact(Ecdh(s, t, Buf(peer), PUB_KEY_SIZE, ValidPtr, PMS_SIZE, NoError, ecdh, secret).state)
  {
    var r := Ecdh(s, t, Buf(peer), PUB_KEY_SIZE, ValidPtr, PMS_SIZE, NoError, ecdh, secret);
    assert peer[..PUB_KEY_SIZE] == peer;
    assert r.state.peer == WithKey(INITIAL_RECORD, peer);
    EnvelopeLayout(peer);
  }

  // ------------------------------------------------------------------ SHA-256

  /** The number of `MemFree` calls in a trace. */
  function Frees(calls: seq<Call>): nat {
    if |calls| == 0 then 0
    else (if calls[0].MemFree? then 1 else 0) + Frees(calls[1..])
  }

  lemma {:induction false} FreesAppend(a: seq<Call>, b: seq<Call>)
    ensures Frees(a + b) == Frees(a) + Frees(b)
  {
    if |a| == 0 {
      assert a + b == b;
    } else {
      assert (a + b)[0] == a[0];
      assert (a + b)[1..] == a[1..] + b;
      FreesAppend(a[1..], b);
    }
  }

  lemma {:induction false} NoFrees(calls: seq<Call>)
    requires forall i :: 0 <= i < |calls| ==> !calls[i].MemFree?
    ensures Frees(calls) == 0
  {
    if |calls| > 0 {
      NoFrees(calls[1..]);
    }
  }

  /** The status a hash step maps to. */
  function HashStepErr(st: LibStatus): OckamErr {
    if st.LibSuccess? then NoError else TpmSha256Fail
  }

  /** The hash calls, in the order the backend makes them. */
  function HashOrder(msgSize: u16): seq<Call> {
    [MemAlloc(msgSize), HashStart(msgSize), HashUpdate(msgSize), HashFinalize]
  }

  /** Allocation, start, update and finalize, stopping at the first failure;
      the buffer is not released here. */
  function HashSteps(msgSize: u16, alloc: OckamErr, start: LibStatus, update: LibStatus,
                     finalize: LibStatus, produced: Digest): (r: Outcome<Option<Digest>>)
    ensures 0 < |r.calls| && r.calls[0] == MemAlloc(msgSize)
    ensures forall i :: 0 <= i < |r.calls| ==> !r.calls[i].MemFree?
    ensures alloc != NoError ==> r.err == alloc
    ensures alloc == NoError ==>
      r.err == (if start.LibSuccess? && update.LibSuccess? && finalize.LibSuccess? then NoError else TpmSha256Fail)
    ensures r.calls <= HashOrder(msgSize)
    ensures HashStart(msgSize) in r.calls <==> alloc == NoError
    ensures HashUpdate(msgSize) in r.calls <==> alloc == NoError && start.LibSuccess?
    ensures HashFinalize in r.calls <==> alloc == NoError && start.LibSuccess? && update.LibSuccess?
    ensures r.out.Some? <==> r.err == NoError
    ensures r.out.Some? ==> r.out.value == produced
  {
    var alloced := [MemAlloc(msgSize)];
    var started := alloced + [HashStart(msgSize)];
    var updated := started + [HashUpdate(msgSize)];
    var finalized := updated + [HashFinalize];
    if alloc != NoError then Outcome(alloc, alloced, None)
    else if start.LibError? then Outcome(TpmSha256Fail, started, None)
    else if update.LibError? then Outcome(TpmSha256Fail, updated, None)
    else if finalize.LibError? then Outcome(TpmSha256Fail, finalized, None)
    else Outcome(NoError, finalized, Some(produced))
  }

  /** A prefix of the hash calls followed by a free: the prefix is kept, the
      calls are the prefix's and the free, and every start and update
      carries `msgSize`. */
  lemma AppendFree(a: seq<Call>, msgSize: u16, nullBuffer: bool)
    requires a <= HashOrder(msgSize)
    ensures (a + [MemFree(nullBuffer)])[..|a|] == a
    ensures forall c :: c in a + [MemFree(nullBuffer)] <==> c in a || c == MemFree(nullBuffer)
    ensures forall c :: c in a + [MemFree(nullBuffer)] ==>
      (c.HashStart? ==> c.contextLength == msgSize) && (c.HashUpdate? ==> c.dataLength == msgSize)
  {
    var calls := a + [MemFree(nullBuffer)];
    forall c | c in calls
      ensures (c.HashStart? ==> c.contextLength == msgSize) && (c.HashUpdate? ==> c.dataLength == msgSize)
    {
      if c != MemFree(nullBuffer) {
        assert c in HashOrder(msgSize);
      }
    }
  }

  /** `ockam_vault_tpm_sha256`: a wrong digest size fails before anything is
      allocated; past that check the context buffer (sized to the message)
      is freed exactly once on every path, as the last call — a buffer whose
      allocation failed is freed as null — and the first error wins, free's
      status being reported only when every earlier step succeeded. `alloc`
      and `free` are the memory helpers' results, `start`, `update` and
      `finalize` the library's statuses, `produced` the digest it writes. */
  function Sha256(msgSize: u16, digestSize: u8, alloc: OckamErr, start: LibStatus, update: LibStatus,
                  finalize: LibStatus, free: OckamErr, produced: Digest): (r: Outcome<Option<Digest>>)
    ensures digestSize != SHA256_DIGEST_SIZE ==> r.err == TpmSha256Fail && r.calls == [] && r.out.None?
    ensures digestSize == SHA256_DIGEST_SIZE ==>
      && Frees(r.calls) == 1
      && |r.calls| >= 2
      && r.calls[0] == MemAlloc(msgSize)
      && r.calls[|r.calls| - 1] == MemFree(alloc != NoError)
    ensures digestSize == SHA256_DIGEST_SIZE && alloc != NoError ==>
      r.err == alloc && r.calls == [MemAlloc(msgSize), MemFree(true)]
    ensures (digestSize == SHA256_DIGEST_SIZE && alloc == NoError
             && !(start.LibSuccess? && update.LibSuccess? && finalize.LibSuccess?)) ==> r.err == TpmSha256Fail
    ensures (digestSize == SHA256_DIGEST_SIZE && alloc == NoError
             && start.LibSuccess? && update.LibSuccess? && finalize.LibSuccess?) ==>
      r.err == free && r.out == Some(produced)
    ensures digestSize == SHA256_DIGEST_SIZE ==>
      r.calls[..|r.calls| - 1] <= HashOrder(msgSize)
    ensures digestSize == SHA256_DIGEST_SIZE ==>
      (HashStart(msgSize) in r.calls <==> alloc == NoError)
    ensures digestSize == SHA256_DIGEST_SIZE ==>
      (HashUpdate(msgSize) in r.calls <==> alloc == NoError && start.LibSuccess?)
    ensures digestSize == SHA256_DIGEST_SIZE ==>
      (HashFinalize in r.calls <==> alloc == NoError && start.LibSuccess? && update.LibSuccess?)
    ensures forall c :: c in r.calls ==>
      (c.HashStart? ==> c.contextLength == msgSize) && (c.HashUpdate? ==> c.dataLength == msgSize)
  {
    if digestSize != SHA256_DIGEST_SIZE then Outcome(TpmSha256Fail, [], None)
    else
      var steps := HashSteps(msgSize, alloc, start, update, finalize, produced);
      var calls := steps.calls + [MemFree(alloc != NoError)];
      NoFrees(steps.calls);
      FreesAppend(steps.calls, [MemFree(alloc != NoError)]);
      AppendFree(steps.calls, msgSize, alloc != NoError);
      var err := if steps.err == NoError then free else steps.err;
      Outcome(err, calls, steps.out)
  }

  /** The error precedence of `Sha256`, against an independent reference:
      the reported error is the first failure among allocation, the three
      hash steps and the release, in that order. */
  lemma Sha256FirstErrorWins(msgSize: u16, alloc: OckamErr, start: LibStatus, update: LibStatus,
                             finalize: LibStatus, free: OckamErr, produced: Digest)
    ensures Sha256(msgSize, SHA256_DIGEST_SIZE, alloc, start, update, finalize, free, produced).err
         == FirstError([alloc, HashStepErr(start), HashStepErr(update), HashStepErr(finalize), free])
  {
    var all := [alloc, HashStepErr(start), HashStepErr(update), HashStepErr(finalize), free];
    var fromStart := [HashStepErr(start), HashStepErr(update), HashStepErr(finalize), free];
    var fromUpdate := [HashStepErr(update), HashStepErr(finalize), free];
    var fromFinalize := [HashStepErr(finalize), free];
    assert all[1..] == fromStart && fromStart[1..] == fromUpdate;
    assert fromUpdate[1..] == fromFinalize && fromFinalize[1..] == [free];
    assert FirstError(all) == if alloc != NoError then alloc else FirstError(fromStart);
    assert FirstError(fromStart) == if start.LibError? then TpmSha256Fail else FirstError(fromUpdate);
    assert FirstError(fromUpdate) == if update.LibError? then TpmSha256Fail else FirstError(fromFinalize);
    assert FirstError(fromFinalize) == if finalize.LibError? then TpmSha256Fail else FirstError([free]);
    assert [free][1..] == [];
  }
}

=== FILE: peer_key.dfy ===
/** The peer public-key record the Optiga's ECDH primitive reads: a packed
    (one-byte aligned) DER BIT STRING header followed by the raw point. */
module PeerKey {
  import opened Common
  import opened KeyStore

  const BIT_STRING_FORMAT: byte := 0x03
  /** Counts the bytes after the tag and this length byte. */
  const REMAINING_LENGTH: byte := 0x42
  /** "Unused bits" byte of the bit string. */
  const UNUSED_BITS: byte := 0x00
  /** Uncompressed point. */
  const COMPRESSION_FORMAT: byte := 0x04

  const HEADER_SIZE: nat := 4
  /** The record's size under one-byte packing: no padding anywhere. */
  const RECORD_SIZE: nat := HEADER_SIZE + PUB_KEY_SIZE

  datatype PeerRecord = PeerRecord(
    bitStringFormat: byte,
    remainingLength: byte,
    reserved: byte,
    compressionFormat: byte,
    publicKey: PubKey)

  /** The record as the global is initialised: the header and a zero key. */
  const INITIAL_RECORD: PeerRecord :=
    PeerRecord(BIT_STRING_FORMAT, REMAINING_LENGTH, UNUSED_BITS, COMPRESSION_FORMAT, Zeros(PUB_KEY_SIZE))

  /** The record's bytes in memory, field by field with no padding. */
  function Serialize(r: PeerRecord): (b: seq<byte>)
    ensures |b| == RECORD_SIZE
    ensures b[0] == r.bitStringFormat && b[1] == r.remainingLength
    ensures b[2] == r.reserved && b[3] == r.compressionFormat
    ensures forall i :: 0 <= i < PUB_KEY_SIZE ==> b[HEADER_SIZE + i] == r.publicKey[i]
  {
    [r.bitStringFormat, r.remainingLength, r.reserved, r.compressionFormat] + r.publicKey
  }

  /** Reads a record back from exactly `RECORD_SIZE` bytes. */
  function Parse(b: seq<byte>): (r: Option<PeerRecord>)
    ensures r.Some? <==> |b| == RECORD_SIZE
    ensures r.Some? ==> Serialize(r.value) == b
  {
    if |b| != RECORD_SIZE then None
    else
      var r := PeerRecord(b[0], b[1], b[2], b[3], b[HEADER_SIZE..]);
      assert Serialize(r) == b[..HEADER_SIZE] + b[HEADER_SIZE..];
      Some(r)
  }

  lemma ParseSerialize(r: PeerRecord)
    ensures Parse(Serialize(r)) == Some(r)
  {
    var b := Serialize(r);
    assert b[HEADER_SIZE..] == r.publicKey;
  }

  /** The record after the peer's raw key has been copied into its key field;
      the header is untouched. */
  function WithKey(r: PeerRecord, k: PubKey): (r': PeerRecord)
    ensures r'.publicKey == k
    ensures Serialize(r')[..HEADER_SIZE] == Serialize(r)[..HEADER_SIZE]
  {
    r.(publicKey := k)
  }

  /** Every record the backend builds from the initial one reads
      `03 42 00 04` followed by the 64 key bytes, and its remaining-length
      byte counts exactly the bytes after the first two. */
  lemma EnvelopeLayout(k: PubKey)
    ensures Serialize(WithKey(INITIAL_RECORD, k)) == [0x03, 0x42, 0x00, 0x04] + k
    ensures REMAINING_LENGTH as nat == RECORD_SIZE - 2
    ensures RECORD_SIZE == 68
  {
  }
}

=== FILE: vault_config.dfy ===
/** The capability-to-backend binding table a build is configured with
    (`OCKAM_VAULT_CFG_*` macros of a `vault_config.h`), the conditions under
    which the Optiga backend compiles each of its sections, and the build
    rejections it raises. Preprocessor evaluation is modelled as a
    validation function over the table. */
module VaultConfig {
  import opened Common
  import opened BackendIds

  /** The six capabilities a configuration binds. */
  datatype Capability = Init | Rand | KeyEcdh | Sha256 | Hkdf | AesGcm

  /** A binding table: the macros a configuration file defines. */
  type BindingTable = map<Capability, bv32>

  /** The value a capability macro has inside `#if`: a macro the table does
      not define reads as 0, as the preprocessor evaluates it. */
  function Lookup(t: BindingTable, c: Capability): (w: bv32)
    ensures c in t ==> w == t[c]
    ensures c !in t ==> w == 0
  {
    if c in t then t[c] else 0
  }

  /** Every capability is bound; a map binds each to exactly one identity. */
  predicate Complete(t: BindingTable) {
    forall c: Capability :: c in t
  }

  /** The configuration file of the ATECC608A test build. */
  const ATECC608A_TABLE: BindingTable := map[
    Init := TPM_MICROCHIP_ATECC608A,
    Rand := TPM_MICROCHIP_ATECC608A,
    KeyEcdh := TPM_MICROCHIP_ATECC608A,
    Sha256 := TPM_MICROCHIP_ATECC608A,
    Hkdf := TPM_MICROCHIP_ATECC608A,
    AesGcm := TPM_MICROCHIP_ATECC608A]

  /** Every capability of the ATECC608A table is bound to the one secure
      element, a TPM-class identity with the HOST bit clear; nothing, HKDF
      and AES-GCM included, is routed to the host library. */
  lemma Atecc608aTableBindings()
    ensures Complete(ATECC608A_TABLE)
    ensures forall c: Capability :: ATECC608A_TABLE[c] == TPM_MICROCHIP_ATECC608A
    ensures forall c: Capability :: ClassOf(ATECC608A_TABLE[c]) == Some(Tpm)
    ensures forall c: Capability :: ATECC608A_TABLE[c] & CFG_HOST == 0
    ensures forall c: Capability :: ATECC608A_TABLE[c] != HOST_MBEDCRYPTO
  {
    forall c: Capability
      ensures c in ATECC608A_TABLE && ATECC608A_TABLE[c] == TPM_MICROCHIP_ATECC608A
    {
      match c
      case Init => case Rand => case KeyEcdh => case Sha256 => case Hkdf => case AesGcm =>
    }
  }

  /** The section guards of the Optiga backend, each as written: `optiga` is
      the value of the Optiga identity macro, whose definition is not part of
      this model. The init guard is a bit mask test. */
  predicate InitSectionSelected(t: BindingTable, optiga: bv32) {
    Lookup(t, Init) & optiga != 0
  }

  /** The random, key/ECDH and SHA-256 guards are equality tests. */
  predicate RandSectionSelected(t: BindingTable, optiga: bv32) {
    Lookup(t, Rand) == optiga
  }

  predicate KeyEcdhSectionSelected(t: BindingTable, optiga: bv32) {
    Lookup(t, KeyEcdh) == optiga
  }

  predicate Sha256SectionSelected(t: BindingTable, optiga: bv32) {
    Lookup(t, Sha256) == optiga
  }

  /** Why a build of the Optiga backend stops with `#error`. */
  datatype BuildError = ConfigFileMissing | HkdfOnOptiga | AesGcmOnOptiga

  /** The outcome of building the Optiga backend against an optional
      configuration: the sections compiled, or the `#error`s raised. */
  datatype Build = Compiled(sections: set<Capability>) | Rejected(errors: set<BuildError>)

  function BuildOptiga(cfg: Option<BindingTable>, optiga: bv32): (b: Build)
    ensures cfg.None? ==> b == Rejected({ConfigFileMissing})
    ensures cfg.Some? && b.Rejected? ==> b.errors <= {HkdfOnOptiga, AesGcmOnOptiga}
    ensures cfg.Some? ==>
      (b.Rejected? <==> Lookup(cfg.value, Hkdf) == optiga || Lookup(cfg.value, AesGcm) == optiga)
    ensures b.Rejected? && cfg.Some? ==>
      (HkdfOnOptiga in b.errors <==> Lookup(cfg.value, Hkdf) == optiga)
      && (AesGcmOnOptiga in b.errors <==> Lookup(cfg.value, AesGcm) == optiga)
    ensures b.Compiled? ==> b.sections <= {Init, Rand, KeyEcdh, Sha256}
    ensures b.Compiled? ==>
      (Init in b.sections <==> InitSectionSelected(cfg.value, optiga))
      && (Rand in b.sections <==> Lookup(cfg.value, Rand) == optiga)
      && (KeyEcdh in b.sections <==> Lookup(cfg.value, KeyEcdh) == optiga)
      && (Sha256 in b.sections <==> Lookup(cfg.value, Sha256) == optiga)
  {
    match cfg
    case None => Rejected({ConfigFileMissing})
    case Some(t) =>
      var errors :=
        (if Lookup(t, Hkdf) == optiga then {HkdfOnOptiga} else {})
        + (if Lookup(t, AesGcm) == optiga then {AesGcmOnOptiga} else {});
      if errors != {} then Rejected(errors)
      else
        Compiled(
          (if InitSectionSelected(t, optiga) then {Init} else {})
          + (if RandSectionSelected(t, optiga) then {Rand} else {})
          + (if KeyEcdhSectionSelected(t, optiga) then {KeyEcdh} else {})
          + (if Sha256SectionSelected(t, optiga) then {Sha256} else {}))
  }

  /** The rejection rule, stated without the build: a configuration is
      refused exactly when it is missing or routes HKDF or AES-GCM to the
      Optiga. Binding them to some other secure element is not refused. */
  lemma BuildRejectsDerivationOnOptiga(cfg: Option<BindingTable>, optiga: bv32)
    ensures BuildOptiga(cfg, optiga).Rejected? <==>
      cfg.None? || (cfg.Some? && ((Hkdf in cfg.value && cfg.value[Hkdf] == optiga)
                                  || (Hkdf !in cfg.value && optiga == 0)
                                  || (AesGcm in cfg.value && cfg.value[AesGcm] == optiga)
                                  || (AesGcm !in cfg.value && optiga == 0)))
  {
  }

  /** Against the ATECC608A table, any Optiga identity other than ATECC608A
      builds: the equality guards select no section, while the mask guard
      selects the init section whenever the Optiga identity shares any bit
      with ATECC608A — in particular whenever it is a TPM-class identity. */
  lemma Atecc608aTableBuild(optiga: bv32)
    requires optiga != TPM_MICROCHIP_ATECC608A
    ensures BuildOptiga(Some(ATECC608A_TABLE), optiga).Compiled?
    ensures BuildOptiga(Some(ATECC608A_TABLE), optiga).sections
         == if TPM_MICROCHIP_ATECC608A & optiga != 0 then {Init} else {}
    ensures ClassOf(optiga) == Some(Tpm) ==> Init in BuildOptiga(Some(ATECC608A_TABLE), optiga).sections
  {
    Atecc608aTableBindings();
    var b := BuildOptiga(Some(ATECC608A_TABLE), optiga);
    assert Lookup(ATECC608A_TABLE, Init) == TPM_MICROCHIP_ATECC608A;
    assert b.Compiled?;
    if ClassOf(optiga) == Some(Tpm) {
      assert TPM_MICROCHIP_ATECC608A & optiga & CFG_TPM == CFG_TPM;
    }
  }

  /** A broader rule: refuse HKDF or AES-GCM bound to any TPM-class
      identity. The Optiga build does not apply it: it refuses only its own
      identity, so the ATECC608A table passes although it binds both to a
      secure element. */
  predicate DerivationOnSecureElement(t: BindingTable) {
    ClassOf(Lookup(t, Hkdf)) == Some(Tpm) || ClassOf(Lookup(t, AesGcm)) == Some(Tpm)
  }

  lemma OptigaRuleNarrowerThanClassRule(optiga: bv32)
    requires optiga != TPM_MICROCHIP_ATECC608A
    ensures DerivationOnSecureElement(ATECC608A_TABLE)
    ensures !BuildOptiga(Some(ATECC608A_TABLE), optiga).Rejected?
  {
    Atecc608aTableBindings();
    Atecc608aTableBuild(optiga);
  }
}
